=== FILE: README.md ===
# YouTube Music Desktop: pairing window, Discord presence and renderer remote control

This project models the sequential decision logic of the YouTube Music Desktop
app (an Electron shell around the YouTube Music web page) and proves properties
about it in Dafny 4.11. It covers four parts:

- **The companion-server pairing window** (`src/index.ts`). Two settings
  describe the window: an encrypted "window enabled" flag and an encrypted
  ISO-8601 opening time, both nullable. Alongside them the process holds at
  most one timer handle. The settings handler arms a 300 s timer; startup
  arms one for the rest of the window.
  - `Pairing.Startup` is the reconciliation run when the app is ready.
  - `Pairing.OnSettingsChange` is the pairing part of the settings-change
    handler.
  - `Pairing.Expire` is the timer firing.
  - The OS cipher (`Vault`) and the ISO-8601 text form of an instant
    (`Calendar`) are parameters. Time is integer milliseconds.
- **Main-process URL rules** (`src/index.ts`): the `will-navigate` allow-list
  and the choice of the first page to load (`Navigation`).
- **The Discord presence integration**
  (`src/integrations/discord-presence/index.ts`). It covers thumbnail
  selection, the state-code icon and caption, the end timestamp, the
  set/clear/ignore decision, and the enable/disable lifecycle as a state
  machine over `{clientPresent, ready, listeners}` (`Presence`).
- **The YouTube Music view's preload script** (`src/ytmview/preload.ts`). It
  covers the hostname gate, the resume-last-track navigation and the shortcut
  commands (`Remote`).

The `App` module wires these together:

- one atomic run of the settings-change handler;
- the setup done at launch;
- a system invariant `Sound`: an open pairing window always has a timer
  armed, and a ready presence client is always present. The launch
  establishes it, and the handler and the timer keep it.

Files: `wrappers.dfy` (Option), `text.dfy` (`StartsWith`), `pairing.dfy`,
`navigation.dfy`, `presence.dfy`, `remote.dfy`, `app.dfy`.

Behaviours of the code that the model keeps on purpose:

- **Unparsable opening time.** The time may decrypt but fail to parse as a
  date. Startup then computes a NaN difference, and NaN fails the `>= 300000`
  test, so the code arms a timer with a NaN delay and keeps both fields. The
  model records this as `Delay.NotANumber`.
- **Empty opening time.** An opening time that decrypts to the empty string
  is falsy. It therefore takes the "clear both fields" branch.
- **Clock set back.** If the stored opening time is in the future, startup
  passes `setTimeout` a delay larger than 300000 ms.
  `Pairing.StartupDelayBounds` states exactly when the delay stays within
  300000 ms.
- **Thumbnail choice.** The choice replaces the current pick only with an
  entry strictly larger in both dimensions, so it is first-seen on ties and
  does not pick the largest area. From `[100x50, 60x200]` the first entry is
  picked.
- **Volume steps are not clamped.** 95 steps up to 105 and 5 steps down to -5.
- **Presence listeners accumulate.** `disable` never removes the player-state
  listener. So each disable/enable round adds one more listener, and one track
  change then sets the same activity once per listener.
- **Undecryptable flag.** A flag that fails to decrypt reads as false and
  clears nothing: both fields stay as stored (src/index.ts:114-117, 170-173).

## Model

| member | source | states |
|---|---|---|
| Pairing.WindowFlag | src/index.ts:114-117 | the flag reads true only when a cipher is present and decrypts to exactly "true"; a null or undecryptable cipher reads false, and an encrypted "true" reads true when the vault round-trips |
| Pairing.EnableTimeText | src/index.ts:176-181 | the opening time is usable only when present, decryptable and non-empty; otherwise it counts as absent |
| Pairing.Startup | src/index.ts:169-201 | startup establishes `Armed`: an open window has a readable opening time and a timer; when that time parses, the window is younger than 300 s and the timer is armed with delay opening time + 300000 − now; when it does not parse, the timer carries NaN. A closed flag changes nothing; an absent time or one at least 300 s old clears both fields and arms nothing; a readable time that does not parse keeps both fields and arms NaN; a younger window keeps both fields and arms 300000 − elapsed; fields are only ever cleared together |
| Pairing.StartupDelayBounds | src/index.ts:185-195 | the armed delay is positive, delay + elapsed = 300000, and the delay is at most 300000 iff the opening time is not in the future |
| Pairing.OnSettingsChange | src/index.ts:114-143 | with the server disabled, an open window ends fully shut (fields null, timer cancelled, none re-armed); with it enabled and no timer, a 300000 ms timer is armed and the opening time rewritten, and that time reads back as `now`; an armed timer or a closed flag means no change; afterwards an open window implies an enabled server and an armed timer |
| Pairing.OnSettingsChangeIdempotent | src/index.ts:134-143 | a second run of the handler with the same switch changes nothing, at any later time |
| Pairing.Expire | src/index.ts:136-140 | when the timer fires, both fields are null, the window reads closed under any vault, and the handle is cleared |
| Pairing.RestartKeepsDeadline | src/index.ts:134-195 | a window opened by the handler at T and reconciled after a restart at `now` is shut when now - T >= 300000, and otherwise stays open with a timer armed with delay T + 300000 − now |
| Pairing.RestartExamples | src/index.ts:182-195 | restarted 100 s into the window, 200 s remain; restarted 400 s in, the window is shut at once |
| Navigation.WillNavigate | src/index.ts:413-418 | a stopped navigation hands exactly the same URL to the external opener |
| Navigation.WillNavigateFollowsAllowList | src/index.ts:413-418 | a navigation proceeds iff its URL starts with one of the five allowed prefixes |
| Navigation.ProceedIsHttps | src/index.ts:414 | every navigation allowed to proceed is an https URL |
| Navigation.WillNavigateExamples | src/index.ts:413-418 | a music watch page proceeds; a www.youtube.com watch page and an http music URL are opened externally |
| Navigation.InitialUrl | src/index.ts:394-410 | the loaded page is always on music.youtube.com; the stored last URL is loaded, with no write-back, iff resuming is on and it starts with the music prefix; otherwise the home page is loaded and written back |
| Navigation.InitialUrlSettles | src/index.ts:396-410 | after the write-back, the next start loads the same page and writes nothing |
| Presence.Pick | src/integrations/discord-presence/index.ts:7-19 | nothing is picked iff no thumbnail has both dimensions positive; the pick has both positive; no thumbnail is strictly larger than the pick in both dimensions; no earlier thumbnail is at least as large in both, so ties keep the first |
| Presence.HighestResThumbnail | src/integrations/discord-presence/index.ts:7-19 | the one-pass loop returns the URL of `Pick`, and returns null iff no thumbnail has both dimensions positive |
| Presence.PickExamples | src/integrations/discord-presence/index.ts:11-17 | equal sizes keep the first; `[100x50, 60x200]` picks the first (not area-maximal); a strictly larger later entry wins; a zero dimension is never picked |
| Presence.SmallImageKey | src/integrations/discord-presence/index.ts:21-39 | the play icon is shown iff the code is 1 or 3; every other code shows the pause icon |
| Presence.SmallImageText | src/integrations/discord-presence/index.ts:41-59 | codes 1, 2 and 3 give Playing, Paused and Buffering; every other code gives Unknown |
| Presence.IconMatchesCaption | src/integrations/discord-presence/index.ts:21-59 | the play icon appears exactly with the Playing and Buffering captions |
| Presence.EndTimestamp | src/integrations/discord-presence/index.ts:76 | the end time lies (length - progress) x 1000 ms after now, so it is in the future iff progress < length |
| Presence.EndTimestampExample | src/integrations/discord-presence/index.ts:76 | length 200 s at progress 50 s ends at now + 150000 |
| Presence.PlayerStateChanged | src/integrations/discord-presence/index.ts:65-87 | ready with video details sets the activity; ready without details clears it; not ready does nothing, so an integration without a client never touches a client. The activity carries the title, author, picked thumbnail, state icon and caption, end time and watch URL |
| Presence.Enable | src/integrations/discord-presence/index.ts:93-107 | with no client, enable creates one and adds exactly one listener; with a client, it changes nothing; a ready client is always present |
| Presence.Disable | src/integrations/discord-presence/index.ts:109-115 | disable drops the client and clears `ready` but keeps every listener; with no client it changes nothing |
| Presence.Connected | src/integrations/discord-presence/index.ts:98-100 | the live client's `connected` event makes the integration ready |
| Presence.Disconnected | src/integrations/discord-presence/index.ts:101-103 | `disconnected` makes the integration not ready and changes nothing else |
| Presence.EnableDisableIdempotent | src/integrations/discord-presence/index.ts:93-115 | enabling twice is the same as enabling once, and so is disabling twice |
| Presence.CyclesAddListeners | src/integrations/discord-presence/index.ts:93-115 | n disable/enable rounds add exactly n listeners; after a round the client is present and not yet ready |
| Presence.RepeatedActivityAfterCycles | src/integrations/discord-presence/index.ts:93-115 | after n rounds and a reconnect, one track change sets the activity `listeners + n` times, given that the store calls each registered listener once per change |
| Remote.Parse | src/ytmview/preload.ts:168-209 | a name is recognised only if it is exactly a command's name |
| Remote.ParseName | src/ytmview/preload.ts:168-209 | every command is recognised by its own name, so no two commands share a name |
| Remote.VolumeUpStep | src/ytmview/preload.ts:185-196 | volume up applies iff the volume is below 100, and then adds exactly 10 with no clamp (95 becomes 105) |
| Remote.VolumeDownStep | src/ytmview/preload.ts:197-208 | volume down applies iff the volume is above 0, and then subtracts exactly 10 with no clamp (5 becomes -5) |
| Remote.VolumeStepsUndo | src/ytmview/preload.ts:185-208 | a step up then a step down gives back the volume for -10 < v < 100; a step down then a step up does so for 0 < v < 110 |
| Remote.Execute | src/ytmview/preload.ts:168-210 | playPause pauses a playing page and plays otherwise; next and previous skip forward and back; the thumbs commands and unknown names do nothing; a volume command sets a volume iff its step applies, and the value is the stepped one |
| Remote.VolumeStaysNearRange | src/ytmview/preload.ts:185-208 | a volume strictly between -10 and 110 stays there under every shortcut |
| Remote.ResumeTarget | src/ytmview/preload.ts:147-166 | a resume navigation is sent iff resuming is on and the last URL is not a watch page; it names the last video, with a null playlist exactly when the stored id is empty |
| Remote.PlaylistIdLiteral | src/ytmview/preload.ts:159 | an absent playlist id is written as `null`, a present one as the id between double quotes |
| Remote.OnLoad | src/ytmview/preload.ts:112-166 | the load listener does nothing unless the hostname is exactly music.youtube.com; otherwise its resume decision is `ResumeTarget` |
| Remote.OnShortcut | src/ytmview/preload.ts:168-210 | shortcuts act only on a page the load listener set up |
| Remote.OffSitePagesNeverAct | src/ytmview/preload.ts:112-115 | on any other host, neither a resume navigation nor a shortcut reaches the player |
| App.OnAnyChange | src/index.ts:101-152 | the companion server follows its switch and presence follows its own; the pairing window is reconciled; at most one listener is added; afterwards an open window implies an enabled server; the invariant `Sound` is kept |
| App.TimerFires | src/index.ts:136-140 | firing the timer closes the window, leaves presence untouched and keeps `Sound` |
| App.Launch | src/index.ts:159-201 | launch enables the companion server iff its switch is on and presence iff its own is on (with one listener); the persisted window is reconciled; the result satisfies `Sound` whatever was persisted |
| App.TrackResumedOnce | src/index.ts:394-410 | with resuming on, exactly one of two things happens: the page loaded by the main process is a watch page, or the preload script (reading the URL the main process stored) sends a resume navigation |

## Left out

- The companion server itself is not part of this model. Token issuance,
  authentication and command relaying live in
  `src/integrations/companion-server`. The model records only the
  `provide`/`enable`/`disable` calls made on it.
- The player-state store is not part of this model. State-code normalisation
  and fan-out live in `src/player-state-store`. Presence receives its
  snapshots as given. The store is assumed to call every registered listener
  once per change (`Presence.Notify`).
- `safeStorage` encryption, hex encoding, `Date` and ISO-8601 parsing are
  abstract parameters (`Vault`, `Calendar`). Round-trip properties are
  assumed where a lemma needs them (`VaultRoundTrips`, `CalendarRoundTrips`).
- Real timers are not modelled. A timer is the delay it was armed with. Time
  passing while it runs is not modelled.
- Pairing.Startup: records the delay argument passed to `setTimeout`. Node
  replaces a delay above 2147483647 ms, or a NaN delay, by 1 ms; that
  clamping is not modelled, so the recorded delay is not always when the
  timer actually fires.
- `Pairing.Startup` overwrites the timer handle when it arms a timer, as the
  code does. A timer armed earlier by the settings handler would keep running;
  such an orphaned timer is not tracked.
- Re-entrant settings events are not modelled. Each `store.set` inside the
  handler fires the handler again; each run is treated as one atomic step.
- Electron plumbing is left out: windows, tray, BrowserView bounds, IPC
  channels, global shortcut registration, notifications and the
  single-instance lock.
- Remote.OnShortcut: models the preload script's `shortcut:triggered`
  listener (src/ytmview/preload.ts:168). The main process sends every command
  on `remoteControl:execute` instead (src/index.ts:157, 212-261, 464-484,
  701-715), and nothing in src/index.ts sends on `shortcut:triggered`, so as
  written no command reaches this handler. The model assumes the command
  arrives on the channel the preload script listens to.
- The Discord RPC connection is left out. So are the effects of `setActivity`
  and `clearActivity`, which are returned as `PresenceEffect` values.
- Presence.Connected: requires that the client is present. Events of a
  client that was already destroyed are not modelled.
- The DOM work of the preload script is left out: stylesheet, navigation
  arrows, Chromecast hiding and player-API hooks. So is the polling wait for
  the player API and the icon font. The page's `playing_` flag and volume are
  parameters.
- Progress and length are integer seconds. The code's `parseInt` of the
  length and its floating-point progress are not modelled.
- `App.TrackResumedOnce` assumes the preload script reads `state.lastUrl`
  after the main process has written the default URL back. The relative
  timing of the two processes is not modelled.

=== FILE: app.dfy ===
/**
 * The main process's wiring of the pieces above: the settings-change handler
 * (`onDidAnyChange`) as one atomic step, the integration setup at launch, and
 * how the startup URL choice and the renderer's resume decision fit together.
 */
module App {
  import opened Wrappers
  import opened Text
  import Pairing
  import Presence
  import Navigation
  import Remote

  /** The integration switches of the settings. */
  datatype Integrations = Integrations(companionServerEnabled: bool, discordPresenceEnabled: bool)

  /** What the main process asks of the companion server, whose own behaviour is not part of this model. */
  datatype CompanionCall = ProvideAndEnable | DisableServer

  /** The pairing window and the presence integration, the state the handler changes. */
  datatype AppState = AppState(pairing: Pairing.PairingState, presence: Presence.Lifecycle)

  /** The system-wide invariant: an open pairing window has a timer armed, and presence is coherent. */
  ghost predicate Sound(a: AppState, v: Pairing.Vault)
  {
    && (Pairing.WindowFlag(v, a.pairing.flagCipher) ==> a.pairing.timer.Some?)
    && Presence.Coherent(a.presence)
  }

  /** The new state and the call made on the companion server. */
  datatype ChangeOutcome = ChangeOutcome(state: AppState, companion: CompanionCall)

  /**
   * One run of the settings-change handler: the companion server follows its
   * switch, the pairing window is reconciled against it, and presence is
   * enabled or disabled after its own switch. The handler keeps `Sound`, and
   * afterwards an open window implies an enabled companion server.
   */
  function OnAnyChange(a: AppState, settings: Integrations, v: Pairing.Vault, cal: Pairing.Calendar, now: int): (r: ChangeOutcome)
    ensures r.companion == ProvideAndEnable <==> settings.companionServerEnabled
    ensures r.state.pairing == Pairing.OnSettingsChange(a.pairing, settings.companionServerEnabled, v, cal, now)
    ensures r.state.presence.clientPresent <==> settings.discordPresenceEnabled
    ensures a.presence.listeners <= r.state.presence.listeners <= a.presence.listeners + 1
    ensures Pairing.WindowFlag(v, r.state.pairing.flagCipher) ==> settings.companionServerEnabled
    ensures Sound(a, v) ==> Sound(r.state, v)
  {
    var companion := if settings.companionServerEnabled then ProvideAndEnable else DisableServer;
    var pairing := Pairing.OnSettingsChange(a.pairing, settings.companionServerEnabled, v, cal, now);
    var presence := if settings.discordPresenceEnabled then Presence.Enable(a.presence) else Presence.Disable(a.presence);
    ChangeOutcome(AppState(pairing, presence), companion)
  }

  /** The pairing expiry timer fires; `Sound` is kept. */
  function TimerFires(a: AppState, v: Pairing.Vault): (r: AppState)
    requires a.pairing.timer.Some?
    ensures !Pairing.WindowFlag(v, r.pairing.flagCipher)
    ensures r.presence == a.presence
    ensures Sound(a, v) ==> Sound(r, v)
  {
    a.(pairing := Pairing.Expire(a.pairing))
  }

  /** The state at launch and the call made on the companion server, if any. */
  datatype LaunchOutcome = LaunchOutcome(state: AppState, companion: Option<CompanionCall>)

  /**
   * Launch: the companion server is provided and enabled when its switch is
   * on, presence is enabled when its switch is on, and once the app is ready
   * the persisted pairing window is reconciled with no timer yet armed. The
   * result is `Sound` whatever was persisted.
   */
  function Launch(settings: Integrations, persisted: Pairing.PairingState, v: Pairing.Vault, cal: Pairing.Calendar, now: int): (r: LaunchOutcome)
    ensures Sound(r.state, v)
    ensures r.companion.Some? <==> settings.companionServerEnabled
    ensures r.companion.Some? ==> r.companion.value == ProvideAndEnable
    ensures r.state.presence.clientPresent <==> settings.discordPresenceEnabled
    ensures r.state.presence.listeners == if settings.discordPresenceEnabled then 1 else 0
    ensures r.state.pairing == Pairing.Startup(Pairing.Restart(persisted), v, cal, now)
  {
    var companion := if settings.companionServerEnabled then Some(ProvideAndEnable) else None;
    var presence := if settings.discordPresenceEnabled then Presence.Enable(Presence.Initial) else Presence.Initial;
    LaunchOutcome(AppState(Pairing.Startup(Pairing.Restart(persisted), v, cal, now), presence), companion)
  }

  /**
   * With `continueWhereYouLeftOff` on, the last track is started exactly one
   * way: either the page the main process loads is already a watch page, or
   * the renderer, reading the last URL the main process left in the store,
   * dispatches a resume navigation, never both and never neither.
   */
  lemma TrackResumedOnce(lastUrl: string, lastVideoId: string, lastPlaylistId: string)
    ensures var load := Navigation.InitialUrl(true, lastUrl);
            var stored := load.storedLastUrl.GetOr(lastUrl);
            StartsWith(load.url, Remote.WatchPagePrefix) <==> Remote.ResumeTarget(true, stored, lastVideoId, lastPlaylistId).None?
  {
  }
}

=== FILE: navigation.dfy ===
/**
 * URL rules of the main process for the embedded YouTube Music view: which
 * page it loads at startup and which navigations it lets through.
 */
module Navigation {
  import opened Wrappers
  import opened Text

  /** The home page of the music site, also the default `state.lastUrl`. */
  const MusicHome: string := "https://music.youtube.com/"

  /** The prefixes a navigation may start with to stay inside the view, in the order the `will-navigate` listener tests them. */
  const AllowedPrefixes: seq<string> := [
    "https://consent.youtube.com/",
    "https://accounts.google.com/",
    "https://accounts.youtube.com/",
    MusicHome,
    "https://www.youtube.com/signin"
  ]

  /** What the `will-navigate` listener does with a URL. */
  datatype NavigationDecision =
    | Proceed
      /** `preventDefault()` and hand the URL to the system's external opener. */
    | OpenExternally(url: string)

  /**
   * The `will-navigate` allow-list: a navigation proceeds iff the URL starts
   * with one of the five allowed prefixes (see `WillNavigateFollowsAllowList`);
   * anything else is stopped and the very same URL is opened externally.
   */
  function WillNavigate(url: string): (d: NavigationDecision)
    ensures d.OpenExternally? ==> d.url == url
  {
    if !StartsWith(url, "https://consent.youtube.com/")
       && !StartsWith(url, "https://accounts.google.com/")
       && !StartsWith(url, "https://accounts.youtube.com/")
       && !StartsWith(url, "https://music.youtube.com/")
       && !StartsWith(url, "https://www.youtube.com/signin")
    then OpenExternally(url)
    else Proceed
  }

  /** A navigation proceeds iff its URL starts with an entry of `AllowedPrefixes`. */
  lemma WillNavigateFollowsAllowList(url: string)
    ensures WillNavigate(url).Proceed? <==> exists i :: 0 <= i < |AllowedPrefixes| && StartsWith(url, AllowedPrefixes[i])
  {
    if WillNavigate(url).Proceed? {
      var i :| i in {0, 1, 2, 3, 4} && StartsWith(url, AllowedPrefixes[i]);
    }
  }

  /** Every navigation that proceeds stays on `https`. */
  lemma ProceedIsHttps(url: string)
    requires WillNavigate(url).Proceed?
    ensures StartsWith(url, "https://")
  {
    WillNavigateFollowsAllowList(url);
    var i :| 0 <= i < |AllowedPrefixes| && StartsWith(url, AllowedPrefixes[i]);
    assert AllowedPrefixes[i][..8] == "https://" by {
      assert i == 0 || i == 1 || i == 2 || i == 3 || i == 4;
    }
    Text.StartsWithShorter(url, AllowedPrefixes[i], "https://");
  }

  /** A watch page of the music site stays; plain YouTube and `http` pages leave the view. */
  lemma WillNavigateExamples()
    ensures WillNavigate("https://music.youtube.com/watch?v=abc").Proceed?
    ensures WillNavigate("https://www.youtube.com/watch?v=abc") == OpenExternally("https://www.youtube.com/watch?v=abc")
    ensures WillNavigate("http://music.youtube.com/") == OpenExternally("http://music.youtube.com/")
  {
    assert StartsWith("https://music.youtube.com/watch?v=abc", AllowedPrefixes[3]);
    var offSite := "https://www.youtube.com/watch?v=abc";
    assert offSite[8] == 'w' && offSite[24] == 'w';
    var plain := "http://music.youtube.com/";
    assert plain[4] == ':';
  }

  /** The page loaded at startup and the value written back to `state.lastUrl`, if any. */
  datatype InitialLoad = InitialLoad(url: string, storedLastUrl: Option<string>)

  /**
   * Startup URL choice: the stored last URL is loaded only when
   * `continueWhereYouLeftOff` is on and that URL is on the music site;
   * otherwise the home page is loaded and written back to the store.
   */
  function InitialUrl(continueWhereYouLeftOff: bool, lastUrl: string): (r: InitialLoad)
    ensures StartsWith(r.url, MusicHome)
    ensures r.storedLastUrl.None? <==> continueWhereYouLeftOff && StartsWith(lastUrl, MusicHome)
    ensures r.storedLastUrl.None? ==> r.url == lastUrl
    ensures r.storedLastUrl.Some? ==> r.url == MusicHome && r.storedLastUrl.value == MusicHome
  {
    var resume := continueWhereYouLeftOff && lastUrl != "" && StartsWith(lastUrl, MusicHome);
    if resume then InitialLoad(lastUrl, None)
    else InitialLoad(MusicHome, Some(MusicHome))
  }

  /**
   * The write-back settles the store: with `continueWhereYouLeftOff` on, the
   * next start loads the same page and writes nothing.
   */
  lemma InitialUrlSettles(lastUrl: string)
    ensures var first := InitialUrl(true, lastUrl);
            InitialUrl(true, first.storedLastUrl.GetOr(lastUrl)) == InitialLoad(first.url, None)
  {
  }
}

=== FILE: pairing.dfy ===
/**
 * The companion-server pairing window ("auth window") of the main process.
 *
 * Two persisted settings describe the window, both stored encrypted and both
 * nullable: the flag `integrations.companionServerAuthWindowEnabled` and the
 * opening time `state.companionServerAuthWindowEnableTime` (an ISO-8601 text).
 * Besides them the process holds at most one one-shot expiry timer. Time is
 * integer milliseconds since the epoch; the OS-backed cipher and the ISO-8601
 * text form of a time are parameters.
 */
module Pairing {
  import opened Wrappers

  /** How long a pairing window stays open: 300 seconds. */
  const WindowTtlMs: int := 300 * 1000

  /** The cleartext the flag must decrypt to for the window to count as open. */
  const FlagTrue: string := "true"

  /**
   * The OS secret store. `decrypt` answers `None` for a blob it cannot read:
   * the code's `try`/`catch` turns every such failure into "absent".
   */
  datatype Vault = Vault(encrypt: string -> string, decrypt: string -> Option<string>)

  /** Decrypting what was encrypted gives it back. */
  ghost predicate VaultRoundTrips(v: Vault)
  {
    forall x :: v.decrypt(v.encrypt(x)) == Some(x)
  }

  /**
   * `format` is `toISOString()`; `parse` is `new Date(text).getTime()`,
   * with `None` for the NaN an unparsable text gives.
   */
  datatype Calendar = Calendar(format: int -> string, parse: string -> Option<int>)

  /** Formatted times are non-empty and parse back to the same instant. */
  ghost predicate CalendarRoundTrips(cal: Calendar)
  {
    forall t :: cal.parse(cal.format(t)) == Some(t) && cal.format(t) != ""
  }

  /** The delay a timer was armed with: a number, or NaN when the opening time did not parse. */
  datatype Delay = Ms(ms: int) | NotANumber

  /**
   * The persisted pair (`None` is `null`) and the in-memory timer handle
   * (`None` when no timer is armed, otherwise the delay it was armed with).
   */
  datatype PairingState = PairingState(flagCipher: Option<string>, timeCipher: Option<string>, timer: Option<Delay>)

  /** Both persisted fields null and no timer: the window is shut. */
  const Shut: PairingState := PairingState(None, None, None)

  /** A fresh process has no timer; the persisted fields survive. */
  function Restart(s: PairingState): PairingState
  {
    s.(timer := None)
  }

  /**
   * Reads the window flag. A missing (`null`) cipher or one that fails to
   * decrypt reads as `false` and never raises; only the exact text "true" is
   * `true`.
   */
  function WindowFlag(v: Vault, cipher: Option<string>): (on: bool)
    ensures on <==> cipher.Some? && v.decrypt(cipher.value) == Some(FlagTrue)
    ensures VaultRoundTrips(v) && cipher == Some(v.encrypt(FlagTrue)) ==> on
  {
    match cipher
    case None => false
    case Some(c) =>
      match v.decrypt(c)
      case None => false
      case Some(text) => text == FlagTrue
  }

  /**
   * Reads the opening time as text. Absent, undecryptable and empty texts all
   * give `None`: the code tests the decrypted string for truthiness.
   */
  function EnableTimeText(v: Vault, cipher: Option<string>): (text: Option<string>)
    ensures text.Some? ==> text.value != "" && cipher.Some? && v.decrypt(cipher.value) == text
    ensures text.None? ==> cipher.None? || v.decrypt(cipher.value) in {None, Some("")}
  {
    match cipher
    case None => None
    case Some(c) =>
      match v.decrypt(c)
      case None => None
      case Some(t) => if t == "" then None else Some(t)
  }

  /** The opening time as an instant, when the text is present and parses. */
  function OpenedAt(v: Vault, cal: Calendar, cipher: Option<string>): Option<int>
  {
    match EnableTimeText(v, cipher)
    case None => None
    case Some(text) => cal.parse(text)
  }

  /**
   * The invariant the startup reconciliation establishes at time `now`: an
   * open window has a readable opening time and an armed timer; when that
   * time parses, the window is younger than the TTL and the timer is armed
   * with the rest of the TTL; when it does not, the timer carries NaN.
   */
  ghost predicate Armed(s: PairingState, v: Vault, cal: Calendar, now: int)
  {
    WindowFlag(v, s.flagCipher) ==>
      && s.timer.Some?
      && EnableTimeText(v, s.timeCipher).Some?
      && (var openTime := OpenedAt(v, cal, s.timeCipher);
          && (openTime.Some? ==> now < openTime.value + WindowTtlMs && s.timer == Some(Ms(openTime.value + WindowTtlMs - now)))
          && (openTime.None? ==> s.timer == Some(NotANumber)))
  }

  /**
   * Startup reconciliation (`integrationsSetupAppReady`). With the flag on:
   * an unreadable opening time, or one at least a TTL ago, clears both
   * persisted fields; otherwise a timer is armed for the rest of the TTL.
   * The persisted fields are never rewritten, only cleared together, and the
   * timer handle is touched only when a timer is armed.
   */
  function Startup(s: PairingState, v: Vault, cal: Calendar, now: int): (r: PairingState)
    ensures Armed(r, v, cal, now)
    ensures !WindowFlag(v, s.flagCipher) ==> r == s
    ensures WindowFlag(v, s.flagCipher) && EnableTimeText(v, s.timeCipher).None? ==>
              r == s.(flagCipher := None, timeCipher := None)
    ensures WindowFlag(v, s.flagCipher) && OpenedAt(v, cal, s.timeCipher).Some?
              && now - OpenedAt(v, cal, s.timeCipher).value >= WindowTtlMs ==>
              r == s.(flagCipher := None, timeCipher := None)
    ensures WindowFlag(v, s.flagCipher) && EnableTimeText(v, s.timeCipher).Some? && OpenedAt(v, cal, s.timeCipher).None? ==>
              r == s.(timer := Some(NotANumber))
    ensures WindowFlag(v, s.flagCipher) && OpenedAt(v, cal, s.timeCipher).Some?
              && now - OpenedAt(v, cal, s.timeCipher).value < WindowTtlMs ==>
              r == s.(timer := Some(Ms(WindowTtlMs - (now - OpenedAt(v, cal, s.timeCipher).value))))
    ensures (r.flagCipher == s.flagCipher && r.timeCipher == s.timeCipher) || (r.flagCipher.None? && r.timeCipher.None?)
    ensures r.timer != s.timer ==> r.flagCipher == s.flagCipher && r.timeCipher == s.timeCipher
  {
    if !WindowFlag(v, s.flagCipher) then s
    else
      match EnableTimeText(v, s.timeCipher)
      case None => s.(flagCipher := None, timeCipher := None)
      case Some(text) =>
        match cal.parse(text)
        case None => s.(timer := Some(NotANumber))
        case Some(openTime) =>
          var elapsed := now - openTime;
          if elapsed >= WindowTtlMs then s.(flagCipher := None, timeCipher := None)
          else s.(timer := Some(Ms(WindowTtlMs - elapsed)))
  }

  /**
   * The delay armed at startup is always positive, and it is within the TTL
   * exactly when the opening time is not in the future: a clock set back
   * after opening the window lengthens the remaining time beyond 300 s.
   */
  lemma StartupDelayBounds(s: PairingState, v: Vault, cal: Calendar, now: int)
    requires WindowFlag(v, s.flagCipher)
    requires OpenedAt(v, cal, s.timeCipher).Some?
    requires now - OpenedAt(v, cal, s.timeCipher).value < WindowTtlMs
    ensures Startup(s, v, cal, now).timer.Some?
    ensures Startup(s, v, cal, now).timer.value.Ms?
    ensures 0 < Startup(s, v, cal, now).timer.value.ms
    ensures Startup(s, v, cal, now).timer.value.ms + (now - OpenedAt(v, cal, s.timeCipher).value) == WindowTtlMs
    ensures Startup(s, v, cal, now).timer.value.ms <= WindowTtlMs <==> OpenedAt(v, cal, s.timeCipher).value <= now
  {
  }

  /**
   * The pairing part of the settings-change handler. With the companion
   * server disabled, an open window is shut: both fields nulled, the timer
   * cancelled, and no new timer armed in the same call. With the window open
   * and no timer armed, a 300 s timer is armed and the opening time is
   * rewritten as the encrypted ISO text of `now`.
   */
  function OnSettingsChange(s: PairingState, serverEnabled: bool, v: Vault, cal: Calendar, now: int): (r: PairingState)
    ensures WindowFlag(v, r.flagCipher) ==> serverEnabled && r.timer.Some?
    ensures !WindowFlag(v, s.flagCipher) ==> r == s
    ensures !serverEnabled && WindowFlag(v, s.flagCipher) ==> r == Shut
    ensures serverEnabled && s.timer.Some? ==> r == s
    ensures serverEnabled && WindowFlag(v, s.flagCipher) && s.timer.None? ==>
              && r.flagCipher == s.flagCipher
              && r.timer == Some(Ms(WindowTtlMs))
              && r.timeCipher == Some(v.encrypt(cal.format(now)))
    ensures VaultRoundTrips(v) && CalendarRoundTrips(cal) && r.timer != s.timer && r.timer.Some? ==>
              OpenedAt(v, cal, r.timeCipher) == Some(now)
  {
    var on := WindowFlag(v, s.flagCipher);
    if !serverEnabled && on then Shut
    else if on && s.timer.None? then
      s.(timer := Some(Ms(WindowTtlMs)), timeCipher := Some(v.encrypt(cal.format(now))))
    else s
  }

  /** Handling a second settings change with the same switch is a no-op, whatever the time. */
  lemma OnSettingsChangeIdempotent(s: PairingState, serverEnabled: bool, v: Vault, cal: Calendar, now: int, later: int)
    ensures var once := OnSettingsChange(s, serverEnabled, v, cal, now);
            OnSettingsChange(once, serverEnabled, v, cal, later) == once
  {
  }

  /** The expiry timer fires: both fields become null and the handle is cleared. */
  function Expire(s: PairingState): (r: PairingState)
    requires s.timer.Some?
    ensures forall v :: !WindowFlag(v, r.flagCipher)
    ensures r.timer.None? && r.timeCipher.None?
  {
    Shut
  }

  /**
   * The TTL survives a restart: a window opened by the settings handler at
   * `openTime` and reconciled after a restart at `now` is shut when a TTL has
   * passed, and otherwise stays open with a timer armed with the delay
   * `openTime` + TTL - `now`.
   */
  lemma RestartKeepsDeadline(s: PairingState, v: Vault, cal: Calendar, openTime: int, now: int)
    requires VaultRoundTrips(v) && CalendarRoundTrips(cal)
    requires WindowFlag(v, s.flagCipher) && s.timer.None?
    ensures var r := Startup(Restart(OnSettingsChange(s, true, v, cal, openTime)), v, cal, now);
            && (now - openTime >= WindowTtlMs ==> r == Shut)
            && (now - openTime < WindowTtlMs ==> WindowFlag(v, r.flagCipher) && r.timer == Some(Ms(openTime + WindowTtlMs - now)))
  {
  }

  /** Restarted 100 s into a window, 200 s remain; restarted 400 s in, it is shut at once. */
  lemma RestartExamples(s: PairingState, v: Vault, cal: Calendar, openTime: int)
    requires VaultRoundTrips(v) && CalendarRoundTrips(cal)
    requires WindowFlag(v, s.flagCipher) && s.timer.None?
    ensures Startup(Restart(OnSettingsChange(s, true, v, cal, openTime)), v, cal, openTime + 100000).timer == Some(Ms(200000))
    ensures Startup(Restart(OnSettingsChange(s, true, v, cal, openTime)), v, cal, openTime + 400000) == Shut
  {
    RestartKeepsDeadline(s, v, cal, openTime, openTime + 100000);
    RestartKeepsDeadline(s, v, cal, openTime, openTime + 400000);
  }
}

=== FILE: presence.dfy ===
/**
 * The Discord presence integration: how a player-state snapshot becomes a
 * rich-presence activity, and the enable/disable lifecycle of the RPC client.
 * The RPC connection itself is outside the model; what the integration asks
 * of the client is returned as a `PresenceEffect`.
 */
module Presence {
  import opened Wrappers

  /** One entry of `videoDetails.thumbnail.thumbnails`. */
  datatype Thumbnail = Thumbnail(url: string, width: int, height: int)

  /** `t` is strictly larger than `width` x `height` in both dimensions. */
  predicate Exceeds(t: Thumbnail, width: int, height: int)
  {
    t.width > width && t.height > height
  }

  /** `t` has a positive width and a positive height. */
  predicate Usable(t: Thumbnail)
  {
    Exceeds(t, 0, 0)
  }

  /** Width of the current choice, 0 before anything was chosen. */
  function ChoiceWidth(ts: seq<Thumbnail>, choice: Option<nat>): int
    requires choice.Some? ==> choice.value < |ts|
  {
    if choice.None? then 0 else ts[choice.value].width
  }

  /** Height of the current choice, 0 before anything was chosen. */
  function ChoiceHeight(ts: seq<Thumbnail>, choice: Option<nat>): int
    requires choice.Some? ==> choice.value < |ts|
  {
    if choice.None? then 0 else ts[choice.value].height
  }

  /**
   * The index `getHighestResThumbnail` settles on, defined over ever longer
   * prefixes: the last entry replaces the choice made on the rest only when
   * it is strictly larger in both dimensions. The choice is `None` iff no
   * entry has both dimensions positive; no entry strictly exceeds the chosen
   * one; and no earlier entry is at least as large in both dimensions, so an
   * equal-sized later entry never replaces it (first seen wins ties).
   */
  function Pick(ts: seq<Thumbnail>): (r: Option<nat>)
    ensures r.Some? ==> r.value < |ts| && Usable(ts[r.value])
    ensures r.None? <==> forall i :: 0 <= i < |ts| ==> !Usable(ts[i])
    ensures r.Some? ==> forall j :: 0 <= j < |ts| ==> !Exceeds(ts[j], ts[r.value].width, ts[r.value].height)
    ensures r.Some? ==> forall j :: 0 <= j < r.value ==> !(ts[j].width >= ts[r.value].width && ts[j].height >= ts[r.value].height)
  {
    if |ts| == 0 then None
    else
      var rest := ts[..|ts| - 1];
      var prev := Pick(rest);
      if Exceeds(ts[|ts| - 1], ChoiceWidth(rest, prev), ChoiceHeight(rest, prev)) then Some(|ts| - 1)
      else prev
  }

  /** The URL of the picked thumbnail, `None` (TypeScript's `null`) when nothing was picked. */
  function ThumbnailUrl(ts: seq<Thumbnail>): Option<string>
  {
    match Pick(ts)
    case None => None
    case Some(k) => Some(ts[k].url)
  }

  /**
   * `getHighestResThumbnail`: a single pass that keeps the current width and
   * height and replaces the choice only on a strictly larger entry.
   */
  method HighestResThumbnail(ts: seq<Thumbnail>) returns (url: Option<string>)
    ensures url == ThumbnailUrl(ts)
    ensures url.None? <==> forall i :: 0 <= i < |ts| ==> !Usable(ts[i])
  {
    var currentWidth := 0;
    var currentHeight := 0;
    url := None;
    ghost var choice: Option<nat> := None;
    for i := 0 to |ts|
      invariant choice == Pick(ts[..i])
      invariant choice.Some? ==> choice.value < i
      invariant currentWidth == ChoiceWidth(ts, choice) && currentHeight == ChoiceHeight(ts, choice)
      invariant url == (if choice.None? then None else Some(ts[choice.value].url))
    {
      assert ts[..i + 1][..i] == ts[..i];
      if ts[i].width > currentWidth && ts[i].height > currentHeight {
        currentWidth := ts[i].width;
        currentHeight := ts[i].height;
        url := Some(ts[i].url);
        choice := Some(i);
      }
    }
    assert ts[..|ts|] == ts;
  }

  /** Ties keep the first entry, and the pick is not the largest area: 100x50 wins over a later 60x200. */
  lemma PickExamples()
    ensures Pick([Thumbnail("a", 10, 10), Thumbnail("b", 10, 10)]) == Some(0)
    ensures Pick([Thumbnail("wide", 100, 50), Thumbnail("tall", 60, 200)]) == Some(0)
    ensures Pick([Thumbnail("small", 60, 40), Thumbnail("large", 120, 90)]) == Some(1)
    ensures Pick([Thumbnail("flat", 100, 0)]) == None
  {
  }

  const PlayIcon: string := "discordrpc-play"
  const PauseIcon: string := "discordrpc-pause"

  /** `getSmallImageKey`: codes 1 (playing) and 3 (buffering) show the play icon, every other code the pause icon. */
  function SmallImageKey(trackState: int): (key: string)
    ensures key == PlayIcon <==> trackState == 1 || trackState == 3
    ensures key == PlayIcon || key == PauseIcon
  {
    match trackState
    case 1 => PlayIcon
    case 2 => PauseIcon
    case 3 => PlayIcon
    case _ => PauseIcon
  }

  /** `getSmallImageText`: 1, 2, 3 are Playing, Paused, Buffering; every other code is Unknown. */
  function SmallImageText(trackState: int): (text: string)
    ensures text == "Playing" <==> trackState == 1
    ensures text == "Paused" <==> trackState == 2
    ensures text == "Buffering" <==> trackState == 3
    ensures text == "Unknown" <==> !(1 <= trackState <= 3)
  {
    match trackState
    case 1 => "Playing"
    case 2 => "Paused"
    case 3 => "Buffering"
    case _ => "Unknown"
  }

  /** The icon and its caption agree: the play icon goes with Playing and Buffering, the pause icon with the rest. */
  lemma IconMatchesCaption(trackState: int)
    ensures SmallImageKey(trackState) == PlayIcon <==> SmallImageText(trackState) in {"Playing", "Buffering"}
  {
  }

  /**
   * The activity's end time: `now` plus the remaining seconds of the track in
   * milliseconds. It lies in the future exactly when the progress is short of
   * the length.
   */
  function EndTimestamp(now: int, lengthSeconds: int, progressSeconds: int): (r: int)
    ensures r - now == (lengthSeconds - progressSeconds) * 1000
    ensures r > now <==> progressSeconds < lengthSeconds
  {
    now + (lengthSeconds - progressSeconds) * 1000
  }

  /** A 200 s track 50 s in ends 150 s from now. */
  lemma EndTimestampExample(now: int)
    ensures EndTimestamp(now, 200, 50) == now + 150000
  {
  }

  /** The fields of `videoDetails` the integration reads. */
  datatype VideoDetails = VideoDetails(videoId: string, title: string, author: string, lengthSeconds: int, thumbnails: seq<Thumbnail>)

  /** The player-state snapshot handed to the listener; `videoDetails` is `None` when no track is known. */
  datatype PlayerState = PlayerState(trackState: int, videoProgress: int, videoDetails: Option<VideoDetails>)

  /** The argument of `setActivity`. */
  datatype Activity = Activity(
    details: string,
    state: string,
    largeImageKey: Option<string>,
    largeImageText: string,
    smallImageKey: string,
    smallImageText: string,
    instance: bool,
    endTimestamp: int,
    buttonLabel: string,
    buttonUrl: string)

  /** What the integration asks of the RPC client. */
  datatype PresenceEffect = SetActivity(activity: Activity) | ClearActivity | NoEffect

  const WatchUrlPrefix: string := "https://music.youtube.com/watch?v="

  /**
   * The RPC client's lifecycle: whether a client object exists, whether it
   * reported `connected`, and how many player-state listeners were added.
   */
  datatype Lifecycle = Lifecycle(clientPresent: bool, ready: bool, listeners: nat)

  /** A new integration: no client, not ready, no listener. */
  const Initial: Lifecycle := Lifecycle(false, false, 0)

  /** Only a present client can be ready. */
  predicate Coherent(p: Lifecycle)
  {
    p.ready ==> p.clientPresent
  }

  /**
   * `playerStateChanged`: when ready, a snapshot with video details sets the
   * activity and one without clears it; when not ready nothing happens, so an
   * integration without a client never reaches the client.
   */
  function PlayerStateChanged(p: Lifecycle, st: PlayerState, now: int): (e: PresenceEffect)
    ensures e.SetActivity? <==> p.ready && st.videoDetails.Some?
    ensures e.ClearActivity? <==> p.ready && st.videoDetails.None?
    ensures e.NoEffect? <==> !p.ready
    ensures Coherent(p) && !p.clientPresent ==> e.NoEffect?
    ensures e.SetActivity? ==>
              var d := st.videoDetails.value;
              var a := e.activity;
              && a.details == d.title && a.largeImageText == d.title
              && a.state == d.author
              && a.largeImageKey == ThumbnailUrl(d.thumbnails)
              && a.smallImageKey == SmallImageKey(st.trackState)
              && a.smallImageText == SmallImageText(st.trackState)
              && !a.instance
              && a.endTimestamp == EndTimestamp(now, d.lengthSeconds, st.videoProgress)
              && a.buttonLabel == "Play on YouTube Music"
              && a.buttonUrl == WatchUrlPrefix + d.videoId
  {
    if p.ready && st.videoDetails.Some? then
      var d := st.videoDetails.value;
      SetActivity(Activity(
        details := d.title,
        state := d.author,
        largeImageKey := ThumbnailUrl(d.thumbnails),
        largeImageText := d.title,
        smallImageKey := SmallImageKey(st.trackState),
        smallImageText := SmallImageText(st.trackState),
        instance := false,
        endTimestamp := now + (d.lengthSeconds - st.videoProgress) * 1000,
        buttonLabel := "Play on YouTube Music",
        buttonUrl := WatchUrlPrefix + d.videoId))
    else if p.ready then ClearActivity
    else NoEffect
  }

  /**
   * `enable`: without a client, creates one (not yet ready) and adds one more
   * player-state listener; with a client, does nothing.
   */
  function Enable(p: Lifecycle): (r: Lifecycle)
    ensures r.clientPresent
    ensures p.clientPresent ==> r == p
    ensures !p.clientPresent ==> r.listeners == p.listeners + 1 && r.ready == p.ready
    ensures Coherent(p) ==> Coherent(r)
  {
    if !p.clientPresent then p.(clientPresent := true, listeners := p.listeners + 1)
    else p
  }

  /**
   * `disable`: with a client, clears `ready` and drops the client; without
   * one, does nothing. The listener is never removed.
   */
  function Disable(p: Lifecycle): (r: Lifecycle)
    ensures !r.clientPresent && r.listeners == p.listeners
    ensures p.clientPresent ==> !r.ready
    ensures !p.clientPresent ==> r == p
    ensures Coherent(p) ==> Coherent(r)
  {
    if p.clientPresent then p.(ready := false, clientPresent := false)
    else p
  }

  /** The present client reports `connected`. */
  function Connected(p: Lifecycle): (r: Lifecycle)
    requires p.clientPresent
    ensures r.ready && r.clientPresent && r.listeners == p.listeners
  {
    p.(ready := true)
  }

  /** The client reports `disconnected`. */
  function Disconnected(p: Lifecycle): (r: Lifecycle)
    ensures !r.ready && r.clientPresent == p.clientPresent && r.listeners == p.listeners
    ensures Coherent(r)
  {
    p.(ready := false)
  }

  /** Enabling twice is enabling once; so is disabling. */
  lemma EnableDisableIdempotent(p: Lifecycle)
    ensures Enable(Enable(p)) == Enable(p)
    ensures Disable(Disable(p)) == Disable(p)
  {
  }

  /** `n` rounds of `disable` followed by `enable`. */
  function Cycles(p: Lifecycle, n: nat): Lifecycle
  {
    if n == 0 then p else Enable(Disable(Cycles(p, n - 1)))
  }

  /** Each disable/enable round adds one more listener; after any round the client is present and not yet ready. */
  lemma {:induction false} CyclesAddListeners(p: Lifecycle, n: nat)
    ensures Cycles(p, n).listeners == p.listeners + n
    ensures n > 0 ==> Cycles(p, n).clientPresent
    ensures n > 0 && Coherent(p) ==> !Cycles(p, n).ready
  {
    if n > 0 {
      CyclesAddListeners(p, n - 1);
    }
  }

  /** A player-state change reaches every registered listener, each of which runs `playerStateChanged`. */
  function Notify(p: Lifecycle, st: PlayerState, now: int): seq<PresenceEffect>
  {
    seq(p.listeners, _ => PlayerStateChanged(p, st, now))
  }

  /**
   * Because listeners are never removed, after `n` disable/enable rounds and
   * a reconnect one track change sets the same activity `listeners + n` times.
   */
  lemma RepeatedActivityAfterCycles(p: Lifecycle, n: nat, st: PlayerState, now: int)
    requires p.clientPresent
    requires st.videoDetails.Some?
    ensures var q := Connected(Cycles(p, n));
            && |Notify(q, st, now)| == p.listeners + n
            && forall i :: 0 <= i < |Notify(q, st, now)| ==> Notify(q, st, now)[i].SetActivity?
  {
  }
}

=== FILE: remote.dfy ===
/**
 * Decisions of the YouTube Music view's preload script: the hostname gate of
 * its `load` listener, the resume-last-track navigation, and the shortcut
 * commands. The page's player API is outside the model: what it reports
 * (`playing_`, `getVolume()`) comes in as parameters, and what the script asks
 * of it comes back as a `PlayerCall`.
 */
module Remote {
  import opened Wrappers
  import opened Text

  /** The only host whose pages the script sets up. */
  const MusicHost: string := "music.youtube.com"

  /** Pages under this prefix already play a track when loaded. */
  const WatchPagePrefix: string := "https://music.youtube.com/watch"

  /** The shortcut commands the script knows. */
  datatype Command = PlayPause | Next | Previous | ThumbsUp | ThumbsDown | VolumeUp | VolumeDown

  /** The name a command travels under. */
  function Name(c: Command): string
  {
    match c
    case PlayPause => "playPause"
    case Next => "next"
    case Previous => "previous"
    case ThumbsUp => "thumbsUp"
    case ThumbsDown => "thumbsDown"
    case VolumeUp => "volumeUp"
    case VolumeDown => "volumeDown"
  }

  /** Recognises a command by exact name; any other name is ignored. */
  function Parse(name: string): (c: Option<Command>)
    ensures c.Some? ==> Name(c.value) == name
  {
    if name == "playPause" then Some(PlayPause)
    else if name == "next" then Some(Next)
    else if name == "previous" then Some(Previous)
    else if name == "thumbsUp" then Some(ThumbsUp)
    else if name == "thumbsDown" then Some(ThumbsDown)
    else if name == "volumeUp" then Some(VolumeUp)
    else if name == "volumeDown" then Some(VolumeDown)
    else None
  }

  /** Every command is recognised by its own name, and names never clash. */
  lemma ParseName(c: Command)
    ensures Parse(Name(c)) == Some(c)
  {
  }

  /** What the script asks of the page's player. `SetVolume` also dispatches `SET_VOLUME` with the same value. */
  datatype PlayerCall = PauseVideo | PlayVideo | NextVideo | PreviousVideo | SetVolume(volume: int)

  /** `volumeUp`: ten more, but only below 100; there is no clamp, so 95 becomes 105. */
  function VolumeUpStep(volume: int): (r: Option<int>)
    ensures r.Some? <==> volume < 100
    ensures r.Some? ==> r.value - volume == 10 && r.value < 110
  {
    if volume < 100 then Some(volume + 10) else None
  }

  /** `volumeDown`: ten less, but only above 0; there is no clamp, so 5 becomes -5. */
  function VolumeDownStep(volume: int): (r: Option<int>)
    ensures r.Some? <==> volume > 0
    ensures r.Some? ==> volume - r.value == 10 && r.value > -10
  {
    if volume > 0 then Some(volume - 10) else None
  }

  /** A step up and a step down undo each other wherever both apply. */
  lemma VolumeStepsUndo(volume: int)
    ensures -10 < volume < 100 ==> VolumeDownStep(VolumeUpStep(volume).value) == Some(volume)
    ensures 0 < volume < 110 ==> VolumeUpStep(VolumeDownStep(volume).value) == Some(volume)
  {
  }

  /**
   * The `shortcut:triggered` handler given the page's `playing_` flag and
   * current volume. `playPause` pauses a playing page and plays otherwise;
   * `next`/`previous` skip; the thumbs commands and unknown names do nothing;
   * the volume commands set the stepped volume when the step applies.
   */
  function Execute(name: string, playing: bool, volume: int): (r: Option<PlayerCall>)
    ensures Parse(name).None? ==> r.None?
    ensures Parse(name) == Some(PlayPause) ==> r == Some(if playing then PauseVideo else PlayVideo)
    ensures Parse(name) == Some(Next) ==> r == Some(NextVideo)
    ensures Parse(name) == Some(Previous) ==> r == Some(PreviousVideo)
    ensures Parse(name) in {Some(ThumbsUp), Some(ThumbsDown)} ==> r.None?
    ensures r.Some? && r.value.SetVolume? ==>
              || (Parse(name) == Some(VolumeUp) && VolumeUpStep(volume) == Some(r.value.volume))
              || (Parse(name) == Some(VolumeDown) && VolumeDownStep(volume) == Some(r.value.volume))
    ensures Parse(name) == Some(VolumeUp) ==> (r.Some? <==> volume < 100) && (r.Some? ==> r.value.SetVolume?)
    ensures Parse(name) == Some(VolumeDown) ==> (r.Some? <==> volume > 0) && (r.Some? ==> r.value.SetVolume?)
  {
    match Parse(name)
    case None => None
    case Some(PlayPause) => if playing then Some(PauseVideo) else Some(PlayVideo)
    case Some(Next) => Some(NextVideo)
    case Some(Previous) => Some(PreviousVideo)
    case Some(ThumbsUp) => None
    case Some(ThumbsDown) => None
    case Some(VolumeUp) =>
      (match VolumeUpStep(volume)
       case None => None
       case Some(v) => Some(SetVolume(v)))
    case Some(VolumeDown) =>
      (match VolumeDownStep(volume)
       case None => None
       case Some(v) => Some(SetVolume(v)))
  }

  /** A volume strictly between -10 and 110 stays there under any shortcut. */
  lemma VolumeStaysNearRange(name: string, playing: bool, volume: int)
    requires -10 < volume < 110
    ensures var r := Execute(name, playing, volume);
            r.Some? && r.value.SetVolume? ==> -10 < r.value.volume < 110
  {
  }

  /** Where the resume navigation sends the player. `playlistId` is `None` for an empty stored id. */
  datatype WatchEndpoint = WatchEndpoint(videoId: string, playlistId: Option<string>)

  /**
   * The resume decision: a navigation to the last track is dispatched iff
   * `continueWhereYouLeftOff` is on and the last URL is not already a watch
   * page. An empty playlist id is sent as `null`.
   */
  function ResumeTarget(continueWhereYouLeftOff: bool, lastUrl: string, lastVideoId: string, lastPlaylistId: string): (r: Option<WatchEndpoint>)
    ensures r.Some? <==> continueWhereYouLeftOff && !StartsWith(lastUrl, WatchPagePrefix)
    ensures r.Some? ==> r.value.videoId == lastVideoId
    ensures r.Some? ==> (r.value.playlistId.None? <==> lastPlaylistId == "")
    ensures r.Some? && r.value.playlistId.Some? ==> r.value.playlistId.value == lastPlaylistId
  {
    if continueWhereYouLeftOff && !StartsWith(lastUrl, WatchPagePrefix) then
      Some(WatchEndpoint(lastVideoId, if lastPlaylistId != "" then Some(lastPlaylistId) else None))
    else None
  }

  /**
   * How the playlist id appears in the injected script: `null` for `None`,
   * otherwise the id between double quotes.
   */
  function PlaylistIdLiteral(playlistId: Option<string>): (lit: string)
    ensures playlistId.None? ==> lit == "null"
    ensures playlistId.Some? ==> |lit| == |playlistId.value| + 2 && lit[0] == '"' && lit[|lit| - 1] == '"'
    ensures playlistId.Some? ==> lit[1..|lit| - 1] == playlistId.value
  {
    match playlistId
    case None => "null"
    case Some(id) => "\"" + id + "\""
  }

  /** The outcome of the `load` listener. */
  datatype LoadOutcome =
    | Skipped
      /** The page was set up and the shortcut listener installed; `resume` is the navigation dispatched, if any. */
    | Initialised(resume: Option<WatchEndpoint>)

  /** The `load` listener: nothing runs unless the hostname is exactly `music.youtube.com`. */
  function OnLoad(hostname: string, continueWhereYouLeftOff: bool, lastUrl: string, lastVideoId: string, lastPlaylistId: string): (r: LoadOutcome)
    ensures r.Skipped? <==> hostname != MusicHost
    ensures r.Initialised? ==> r.resume == ResumeTarget(continueWhereYouLeftOff, lastUrl, lastVideoId, lastPlaylistId)
  {
    if hostname != MusicHost then Skipped
    else Initialised(ResumeTarget(continueWhereYouLeftOff, lastUrl, lastVideoId, lastPlaylistId))
  }

  /** A shortcut reaching the page: only a set-up page has the listener that acts on it. */
  function OnShortcut(page: LoadOutcome, name: string, playing: bool, volume: int): (r: Option<PlayerCall>)
    ensures page.Skipped? ==> r.None?
    ensures page.Initialised? ==> r == Execute(name, playing, volume)
  {
    match page
    case Skipped => None
    case Initialised(_) => Execute(name, playing, volume)
  }

  /** On any other host neither a resume navigation nor a shortcut ever reaches the player. */
  lemma OffSitePagesNeverAct(hostname: string, continueWhereYouLeftOff: bool, lastUrl: string, lastVideoId: string, lastPlaylistId: string, name: string, playing: bool, volume: int)
    requires hostname != MusicHost
    ensures OnLoad(hostname, continueWhereYouLeftOff, lastUrl, lastVideoId, lastPlaylistId) == Skipped
    ensures OnShortcut(OnLoad(hostname, continueWhereYouLeftOff, lastUrl, lastVideoId, lastPlaylistId), name, playing, volume).None?
  {
  }
}

=== FILE: text.dfy ===
/** String helpers shared by the URL rules of the main process and the renderer. */
module Text {

  /** JavaScript's `String.prototype.startsWith` with no position argument. */
  predicate StartsWith(s: string, prefix: string)
  {
    |prefix| <= |s| && s[..|prefix|] == prefix
  }

  /** A string that starts with a longer prefix also starts with every prefix of that prefix. */
  lemma StartsWithShorter(s: string, prefix: string, shorter: string)
    requires StartsWith(s, prefix)
    requires StartsWith(prefix, shorter)
    ensures StartsWith(s, shorter)
  {
  }
}

=== FILE: wrappers.dfy ===
/** Optional values, standing in for JavaScript's `null`. */
module Wrappers {

  /** `None` plays the role of JavaScript's `null` (or of a value that could not be read). */
  datatype Option<+T> = None | Some(value: T) {

    /** The wrapped value, or `default` when there is none. */
    function GetOr(default: T): (r: T)
      ensures Some? ==> r == value
      ensures None? ==> r == default
    {
      match this
      case Some(v) => v
      case None => default
    }
  }
}
